=== FILE: README.md ===
# Polling-unit results service: a Dafny model

This project models the core of a small election-results web service.

The LGA router (`app/routers/lgas.py`) has two read operations:
- it lists every Local Government Area (LGA) ordered by name;
- it sums the announced polling-unit results of one LGA, party by party.

The polling-unit router (`app/routers/polling_units.py`) has two operations:
- it reads the announced results of one polling unit;
- it stores a batch of (party, score) results for a unit, as an upsert keyed by (polling unit, party).

The database is three immutable sequences: LGAs, polling units, and announced result rows. Each table is a sequence in table order. A result row refers to its polling unit by the unit's surrogate `uniqueid` rendered as a decimal string. Its score is nullable.

Every operation is a pure function from the database, and for the store also the request, to a `Response`. A `Response` is either `Ok` or `Err` with one of three failures:
- `NotFound`: an HTTP 404;
- `StorageFailure`: a 500 when the commit fails;
- `InvalidResponse`: a 500 when the response schema rejects the data.

The store also returns the database after the request.

Modules:
- `Decimal`: Python's `str(int)`. The parser inverts it, and from that it follows that two ids render alike exactly when they are equal.
- `Models`: the records, and the `.first()` lookups.
- `Schemas`: request and response shapes, and the request default for `entered_by_user`.
- `Aggregate`: the `WHERE polling_unit_uniqueid IN ids GROUP BY party_abbreviation` query with SQL `SUM`. It is a fold over the rows, and it is proved against reference definitions. Each group's total is the sum of its non-NULL scores. A group is NULL only when all its scores are NULL.
- `Lgas`: `get_all_lgas` and `get_lga_summary`.
- `Upsert`: the loop of the store, as two folds:
  - `Loaded` holds the rows already in storage, updated in place;
  - `Pending` holds the rows the loop adds.

  The session is created with `autoflush=False` (app/database.py:67). So the lookup in the loop is answered from storage alone: it sees the rows stored before the request, and never a row added earlier in the same request. The commit writes `Loaded + Pending`.
- `PollingUnits`: `get_polling_unit_results` and `store_polling_unit_results`, and properties of the whole store operation.

Two things are parameters rather than computed:
- `datetime.now()`: the store takes one opaque `Timestamp` per request entry.
- The commit's outcome: the store takes a `commitOk` flag.

One choice is fixed rather than computed: `.first()` without `ORDER BY` is taken to return the first matching row in table order.

### Duplicate parties and repeated requests

A party named twice in one request is last-write-wins only when a row for it already exists: both entries update that row, and the later score stays (`PollingUnits.StoreUpdatesExisting`). When no row exists yet, each entry inserts its own row (`PollingUnits.DuplicatePartyInsertsTwice`). The session uses `autoflush=False` (app/database.py:67), so the lookup in the loop cannot see the row the earlier entry added. A second run of the same request then rewrites only the first of those rows, with the last entry's score (`PollingUnits.DuplicatePartyNotIdempotent`). So such a request is not idempotent.

Repeating a request is idempotent when its parties are distinct, up to the entry timestamps (`PollingUnits.StoreIdempotent`).

The code does not check that scores are non-negative, and the model does not assume it. The ORM model (app/models.py:49-59) declares no unique constraint on (unit, party), and the table's schema is created outside the code. A unique index there would turn the double insert into a failed commit, which `Store` covers with `commitOk = false`.

## Model

| member | source | states |
|---|---|---|
| Decimal.IntToString | app/routers/polling_units.py:75 | `str()` of an integer is its canonical decimal numeral: a '-' exactly when the integer is negative, and no leading zero except for 0 itself, so unit 7 is referenced as "7" and never "07"; `Decimal.IntRoundTrip` shows it parses back |
| Decimal.IntRoundTrip | app/routers/polling_units.py:75 | parsing the `str()` rendering of any integer gives back that integer |
| Decimal.IntToStringInjective | app/routers/lgas.py:65 | two unit ids render to the same reference string exactly when they are equal |
| Models.FindLga | app/routers/lgas.py:47-50 | the lookup by `lga_id` fails exactly when no LGA has that id; otherwise it returns the first LGA with it |
| Models.FindUnit | app/routers/polling_units.py:25-30 | the lookup by `uniqueid` fails exactly when no unit has that id; otherwise it returns the first unit with it in table order, which is the only one since `uniqueid` is the primary key |
| Models.FirstRowSpec | app/routers/polling_units.py:81-84 | the upsert lookup finds nothing exactly when no row has the (unit, party) key; otherwise it finds the first row with that key |
| Schemas.MakeRequest | app/schemas.py:47-51 | an omitted `entered_by_user` becomes "system"; the entries and the address are taken as sent |
| Aggregate.Keep | app/routers/lgas.py:72-74 | a row survives the `IN ids` filter exactly when its unit reference is one of the ids |
| Aggregate.Accumulate | app/routers/lgas.py:69-76 | one row fed to the running GROUP BY adds its party to the set of groups when the row passes the filter and changes no set otherwise; groups stay one per party |
| Aggregate.AccumulateSummarizes | app/routers/lgas.py:69-76 | feeding one more row to the groups keeps them equal to GROUP BY + SUM over the rows seen: distinct parties, the parties of the filtered rows, each total the sum of the non-NULL scores, NULL only when no score is present |
| Aggregate.GroupSum | app/routers/lgas.py:69-76 | the grouped sums summarise the filtered rows, as stated for AccumulateSummarizes |
| Aggregate.GroupSumOnlyKept | app/routers/lgas.py:72-74 | rows outside the filter do not affect the grouping at all |
| Aggregate.NoRowsNoTally | app/routers/lgas.py:69-76 | a party with no row passing the filter totals zero |
| Lgas.SortByName | app/routers/lgas.py:21 | the result is ordered by name and is a permutation of the input |
| Lgas.AllLgas | app/routers/lgas.py:13-26 | one `(lga_id, lga_name)` entry per stored LGA, as a multiset, ordered by name |
| Lgas.UnitRefs | app/routers/lgas.py:53-65 | a reference is listed exactly when it is the rendered `uniqueid` of a unit of the LGA; the list is empty exactly when the LGA has no units |
| Lgas.Format | app/routers/lgas.py:79-85 | one entry per group, carrying the group's party and its total, with a NULL total reported as 0 |
| Lgas.Reported | app/routers/lgas.py:82 | `int(total) if total else 0` reports the group's SQL sum with NULL read as 0, and reports 0 exactly when the sum is NULL or zero |
| Lgas.Summary | app/routers/lgas.py:34-98 | NotFound exactly when no LGA has the id. Otherwise it echoes the id and the first matching LGA's name. It lists each party among the LGA's result rows once, with the sum of its non-NULL scores. An LGA without units gets an empty list |
| Lgas.NoResultsEmptySummary | app/routers/lgas.py:69-84 | an existing LGA whose units have no result rows gets an empty, successful summary |
| Lgas.SummaryIsolation | app/routers/lgas.py:69-76 | two databases with the same LGAs, units, and rows of the LGA's units give the same summary |
| Lgas.ForeignRowIgnored | app/routers/lgas.py:53-73 | a result row of a unit in another LGA, inserted anywhere in the table, does not change the summary |
| Upsert.StoredIp | app/routers/polling_units.py:91 | an absent or empty address is stored as NULL; any other address is stored as sent |
| Upsert.Updated | app/routers/polling_units.py:86-91 | the update branch keeps the row's key columns |
| Upsert.Loaded | app/routers/polling_units.py:79-91 | the stored rows after the loop's update branch: the table keeps its length and every row keeps its (unit, party) key; `Upsert.LoadedRow` gives each row's value |
| Upsert.LoadedUpdated | app/routers/polling_units.py:79-91 | the first stored row of a submitted party's key ends up carrying the last entry for that party |
| Upsert.LoadedUnchanged | app/routers/polling_units.py:79-91 | every other stored row is left as it was |
| Upsert.LoadedRow | app/routers/polling_units.py:79-91 | a stored row changes only if it is the first row of a submitted party's key, and then it carries that party's last entry |
| Upsert.NewRow | app/routers/polling_units.py:94-101 | the inserted row has the unit's reference and the entry's party as its key, and updating it with the same entry and clock reading changes nothing |
| Upsert.Pending | app/routers/polling_units.py:79-102 | the rows the loop adds: at most one per processed entry; `Upsert.PendingRows` and `Upsert.PendingScores` give their contents |
| Upsert.PendingRows | app/routers/polling_units.py:92-102 | each added row is for this unit and a submitted party with no stored row, and records the request's user and address |
| Upsert.PendingScores | app/routers/polling_units.py:92-102 | for a party with no stored row, the added rows carry exactly the submitted scores for it, in request order |
| Upsert.PendingNoneStored | app/routers/polling_units.py:86-91 | a party that has a stored row gets no added row |
| Upsert.PendingDistinct | app/routers/polling_units.py:79-102 | with distinct parties in the request, no two added rows share a party |
| Upsert.PendingScore | app/routers/polling_units.py:92-102 | with distinct parties, each added row carries the one score submitted for its party |
| Upsert.PendingCovers | app/routers/polling_units.py:92-102 | every entry whose party has no stored row gets its own added row |
| Upsert.PendingAllNew | app/routers/polling_units.py:92-102 | when no submitted party has a stored row, the added rows are one new row per entry, in request order |
| Upsert.PendingEmpty | app/routers/polling_units.py:86-91 | when every submitted party has a stored row, nothing is added |
| PollingUnits.Render | app/routers/polling_units.py:38-44 | the rows are listed one for one, in order, with raw scores; a NULL score makes the response invalid |
| PollingUnits.GetResults | app/routers/polling_units.py:14-52 | NotFound exactly for an unknown unit. Otherwise it echoes the unit's id, name, number and LGA. It lists exactly the unit's rows, in table order, without grouping |
| PollingUnits.GetResultsExact | app/routers/polling_units.py:33-44 | every stored row of the unit is listed, and every listed entry comes from a stored row of the unit |
| PollingUnits.StoredMessage | app/routers/polling_units.py:103-109 | the success message starts with "Successfully stored " and ends with " party results", with room for the count between them |
| PollingUnits.StoredMessageCount | app/routers/polling_units.py:103-109 | what lies between that prefix and suffix is a decimal numeral that reads back as the number of entries |
| PollingUnits.StoredMessageInjective | app/routers/polling_units.py:103-110 | the success message determines the count it reports |
| PollingUnits.Committed | app/routers/polling_units.py:79-106 | the committed table keeps the pre-request rows' keys in place and appends at most one row per entry |
| PollingUnits.Store | app/routers/polling_units.py:55-114 | NotFound for an unknown unit and StorageFailure for a failed commit; on either, the database is unchanged. On success the reply is `success`, a message counting every entry, and `str(id)`. Only the result table changes: rows are only rewritten in place or appended |
| PollingUnits.StoreUpdatesExisting | app/routers/polling_units.py:81-91 | a stored row changes only if it is the first row of the unit's key for a submitted party, and then it takes that party's last entry |
| PollingUnits.StoreFrame | app/routers/polling_units.py:81-102 | rows of other units, and rows of parties the request does not name, are unchanged |
| PollingUnits.StoreAppends | app/routers/polling_units.py:92-102 | appended rows belong to the unit, are for submitted parties without a stored row, and record the request's user and address |
| PollingUnits.StoreAppendedScores | app/routers/polling_units.py:92-102 | for a party without a stored row, the appended rows carry exactly its submitted scores, in order, so a duplicated party gets two rows |
| PollingUnits.StoreRecordsSubmitter | app/routers/polling_units.py:86-100 | every written or rewritten row records the request's user, and its address with an empty one stored as NULL |
| PollingUnits.DuplicatePartyInsertsTwice | app/routers/polling_units.py:79-102 | a party named twice for a unit without rows yields two rows with the same key |
| PollingUnits.DuplicatePartyNotIdempotent | app/routers/polling_units.py:81-91 | repeating that request rewrites the first of the two rows with the later score |
| PollingUnits.CommittedOutside | app/routers/polling_units.py:79-102 | a filter that excludes the stored unit sees the same rows before and after the store |
| PollingUnits.StoreElsewhereInvisible | app/routers/polling_units.py:33-35 | storing for one unit never changes what another unit reads back |
| PollingUnits.StoreLeavesOtherLgas | app/routers/polling_units.py:75-102 | storing for a unit never changes the summary of an LGA the unit is not in |
| PollingUnits.FreshUnitCommitted | app/routers/polling_units.py:92-102 | for a unit without rows, its rows after the store are one new row per entry, in request order |
| PollingUnits.StoreThenGet | app/routers/polling_units.py:33-44 | a unit without rows reads back exactly the submitted entries, in order, after they are stored |
| PollingUnits.StoreKeepsKeysUnique | app/routers/polling_units.py:81-102 | with distinct parties, a table holding one row per (unit, party) key still does after the store |
| PollingUnits.CommittedCovers | app/routers/polling_units.py:81-102 | after the store, every submitted party has a row under the unit's key |
| PollingUnits.RepeatedRow | app/routers/polling_units.py:86-91 | with distinct parties, the same request rewrites each row it wrote to the same content, timestamp aside |
| PollingUnits.StoreIdempotent | app/routers/polling_units.py:81-102 | with distinct parties, repeating a successful request leaves the same rows in the same order; they differ at most in their entry timestamps |

## Left out

- HTTP and FastAPI routing, SQLAlchemy sessions and SQL execution: status codes become the three `Failure` values.
- Database failures during a query: the 500 replies of the two LGA reads (app/routers/lgas.py:27-31, 94-98), and the 500 through `get_db` (app/database.py:79-97) when `get_polling_unit_results` or a lookup inside the store's loop fails. Queries are modelled as total functions over the tables. The only failure the store models is a failed commit.
- `datetime.now()` is an opaque `Timestamp` parameter, one per entry. Whether the commit succeeds is a boolean parameter. Neither is computed.
- Concurrency: two submissions racing at the database. The code has no control over it.
- Database collation. Every string comparison in the model is exact code-point equality or order. This covers `ORDER BY lga_name`, the upsert lookup on `polling_unit_uniqueid` and `party_abbreviation` (app/routers/polling_units.py:81-84), the `IN pu_ids` filter (app/routers/lgas.py:73) and `GROUP BY party_abbreviation` (app/routers/lgas.py:75). Under a case-insensitive collation, such as MySQL's default `_ci` collations for the fallback URL (app/database.py:37), "pdp" would update a stored "PDP" row and share its group. The model instead inserts a second row and keeps two groups.
- Row order of unordered queries. The results query at app/routers/polling_units.py:33-35 has no `ORDER BY`. The model takes it to return rows in table order, with committed inserts placed after the existing rows in the order they were added. `PollingUnits.GetResults`, `PollingUnits.StoreThenGet` and `PollingUnits.FreshUnitCommitted` state their order under this assumption.
- The order of the summary's party totals: SQL guarantees none, so the contracts state none. The fold produces first-appearance order.
- Column widths (`String(50)`, `String(11)`) and the SQL integer width: strings are unbounded, and scores and their sums are unbounded integers.
- Columns the routers never read: `result_id`, descriptions, coordinates, the audit columns of the reference tables. The unused `Party` and `Ward` models are also left out.
- Request validation by pydantic beyond the `entered_by_user` default. A request that fails validation never reaches the handler.
- NULL in columns other than `party_score`. `lga_name` is nullable in the table but a string in the response. The columns `party_abbreviation` and `polling_unit_uniqueid` (app/models.py:54-55), `PollingUnit.lga_id` (app/models.py:14) and `LGA.lga_id` (app/models.py:31) are nullable by SQLAlchemy's default too. The model types all of them as non-NULL strings and integers. So it does not model the 500 a NULL party abbreviation causes: in the summary, `PartyResult(...)` fails and app/routers/lgas.py:94-98 answers 500; on the polling-unit read, the response fails too.
- A NULL `party_score` on the read path has no stated behaviour in the code. The response schema's `party_score: int` rejects it, so the model answers `InvalidResponse`.
- app/main.py (HTML pages, health check) and app/database.py apart from `autoflush=False` are not part of this model.
- PollingUnits.StoreIdempotent: holds only for requests with distinct parties and only up to the entry timestamps. The duplicate-party case is not idempotent, as PollingUnits.DuplicatePartyNotIdempotent shows.

=== FILE: aggregate.dfy ===
/** The per-LGA aggregation query:
      SELECT party_abbreviation, SUM(party_score)
      FROM announced_pu_results WHERE polling_unit_uniqueid IN ids
      GROUP BY party_abbreviation
    as a left-to-right fold over the result table, proved against reference
    definitions of what each group must hold. */
module Aggregate {
  import opened Models

  /** One step of SQL `SUM`: NULL scores are skipped, and a group that has
      seen no non-NULL score sums to NULL. */
  function SqlAdd(acc: Option<int>, score: Option<int>): Option<int> {
    match score
    case None => acc
    case Some(v) => Some(match acc case None => v case Some(a) => a + v)
  }

  function ScoreOrZero(score: Option<int>): int {
    match score case None => 0 case Some(v) => v
  }

  /** The row passes `polling_unit_uniqueid IN ids` and falls into group `party`. */
  predicate InGroup(row: ResultRow, ids: seq<string>, party: string) {
    row.pollingUnitUniqueid in ids && row.partyAbbreviation == party
  }

  /** Reference total: the non-NULL scores of the group's rows, added up. */
  function Tally(rows: seq<ResultRow>, ids: seq<string>, party: string): int
    decreases |rows|
  {
    if |rows| == 0 then 0
    else
      var last := rows[|rows| - 1];
      Tally(rows[..|rows| - 1], ids, party) +
        (if InGroup(last, ids, party) then ScoreOrZero(last.partyScore) else 0)
  }

  /** Some row of the group carries a non-NULL score. */
  predicate Scored(rows: seq<ResultRow>, ids: seq<string>, party: string) {
    exists i :: 0 <= i < |rows| && InGroup(rows[i], ids, party) && rows[i].partyScore.Some?
  }

  /** Reference group keys: the abbreviations of the rows that pass the filter. */
  function Parties(rows: seq<ResultRow>, ids: seq<string>): set<string> {
    set i | 0 <= i < |rows| && rows[i].pollingUnitUniqueid in ids :: rows[i].partyAbbreviation
  }

  /** Rows that pass the filter, in table order. */
  function Keep(rows: seq<ResultRow>, ids: seq<string>): (kept: seq<ResultRow>)
    ensures forall r :: r in kept <==> r in rows && r.pollingUnitUniqueid in ids
    decreases |rows|
  {
    if |rows| == 0 then []
    else
      var last := rows[|rows| - 1];
      var front := Keep(rows[..|rows| - 1], ids);
      assert forall r :: r in rows <==> r in rows[..|rows| - 1] || r == last;
      if last.pollingUnitUniqueid in ids then front + [last] else front
  }

  datatype Group = Group(party: string, sum: Option<int>)

  predicate DistinctParties(groups: seq<Group>) {
    forall i, j :: 0 <= i < j < |groups| ==> groups[i].party != groups[j].party
  }

  function GroupParties(groups: seq<Group>): set<string> {
    set i | 0 <= i < |groups| :: groups[i].party
  }

  function FindGroup(groups: seq<Group>, party: string): (r: Option<nat>)
    ensures r.None? <==> party !in GroupParties(groups)
    ensures r.Some? ==> r.value < |groups| && groups[r.value].party == party
  {
    if |groups| == 0 then None
    else if groups[0].party == party then Some(0)
    else
      match FindGroup(groups[1..], party)
      case None =>
        assert forall i :: 1 <= i < |groups| ==> groups[i] == groups[1..][i - 1];
        None
      case Some(k) => Some(k + 1)
  }

  /** The groups are what GROUP BY + SUM over the filtered rows yields, in some order. */
  predicate Summarizes(groups: seq<Group>, rows: seq<ResultRow>, ids: seq<string>) {
    && DistinctParties(groups)
    && GroupParties(groups) == Parties(rows, ids)
    && forall i :: 0 <= i < |groups| ==>
         && ScoreOrZero(groups[i].sum) == Tally(rows, ids, groups[i].party)
         && (groups[i].sum.None? <==> !Scored(rows, ids, groups[i].party))
  }

  /** Feed one row to the running groups. */
  function Accumulate(groups: seq<Group>, row: ResultRow, ids: seq<string>): (next: seq<Group>)
    ensures GroupParties(next) ==
            GroupParties(groups) + (if row.pollingUnitUniqueid in ids then {row.partyAbbreviation} else {})
    ensures DistinctParties(groups) ==> DistinctParties(next)
  {
    if row.pollingUnitUniqueid !in ids then groups
    else
      match FindGroup(groups, row.partyAbbreviation)
      case Some(i) =>
        var next := groups[i := Group(row.partyAbbreviation, SqlAdd(groups[i].sum, row.partyScore))];
        assert GroupParties(next) == GroupParties(groups) by {
          forall p | p in GroupParties(groups) ensures p in GroupParties(next) {
            var j :| 0 <= j < |groups| && groups[j].party == p;
            assert next[j].party == p;
          }
        }
        next
      case None =>
        var next := groups + [Group(row.partyAbbreviation, SqlAdd(None, row.partyScore))];
        assert GroupParties(next) == GroupParties(groups) + {row.partyAbbreviation} by {
          forall p | p in GroupParties(groups) ensures p in GroupParties(next) {
            var j :| 0 <= j < |groups| && groups[j].party == p;
            assert next[j].party == p;
          }
          assert next[|groups|].party == row.partyAbbreviation;
        }
        assert forall j :: 0 <= j < |groups| ==> groups[j].party in GroupParties(groups);
        next
  }

  lemma {:induction false} SplitLast(rows: seq<ResultRow>, row: ResultRow, ids: seq<string>, party: string)
    ensures (rows + [row])[..|rows|] == rows
    ensures Tally(rows + [row], ids, party) ==
            Tally(rows, ids, party) + (if InGroup(row, ids, party) then ScoreOrZero(row.partyScore) else 0)
    ensures Scored(rows + [row], ids, party) <==>
            Scored(rows, ids, party) || (InGroup(row, ids, party) && row.partyScore.Some?)
    ensures Parties(rows + [row], ids) ==
            Parties(rows, ids) + (if row.pollingUnitUniqueid in ids then {row.partyAbbreviation} else {})
  {
    var all := rows + [row];
    assert all[..|rows|] == rows;
    assert all[|rows|] == row;
    if Scored(all, ids, party) {
      var i :| 0 <= i < |all| && InGroup(all[i], ids, party) && all[i].partyScore.Some?;
      if i < |rows| {
        assert rows[i] == all[i];
      }
    }
    if Scored(rows, ids, party) {
      var i :| 0 <= i < |rows| && InGroup(rows[i], ids, party) && rows[i].partyScore.Some?;
      assert all[i] == rows[i];
    }
    forall p | p in Parties(all, ids)
      ensures p in Parties(rows, ids) + (if row.pollingUnitUniqueid in ids then {row.partyAbbreviation} else {})
    {
      var i :| 0 <= i < |all| && all[i].pollingUnitUniqueid in ids && all[i].partyAbbreviation == p;
      if i < |rows| {
        assert rows[i] == all[i];
      }
    }
    forall p | p in Parties(rows, ids)
      ensures p in Parties(all, ids)
    {
      var i :| 0 <= i < |rows| && rows[i].pollingUnitUniqueid in ids && rows[i].partyAbbreviation == p;
      assert all[i] == rows[i];
    }
  }

  /** One accumulation step keeps the groups in agreement with the reference definitions. */
  lemma AccumulateSummarizes(groups: seq<Group>, rows: seq<ResultRow>, row: ResultRow, ids: seq<string>)
    requires Summarizes(groups, rows, ids)
    ensures Summarizes(Accumulate(groups, row, ids), rows + [row], ids)
  {
    var all := rows + [row];
    var next := Accumulate(groups, row, ids);
    forall party {
      SplitLast(rows, row, ids, party);
    }
    if row.pollingUnitUniqueid in ids {
      match FindGroup(groups, row.partyAbbreviation)
      case Some(k) =>
        assert next == groups[k := Group(row.partyAbbreviation, SqlAdd(groups[k].sum, row.partyScore))];
      case None =>
        assert next == groups + [Group(row.partyAbbreviation, SqlAdd(None, row.partyScore))];
        forall i | 0 <= i < |groups|
          ensures groups[i].party != row.partyAbbreviation
        {
          assert groups[i].party in GroupParties(groups);
        }
        assert Tally(rows, ids, row.partyAbbreviation) == 0 by {
          NoRowsNoTally(rows, ids, row.partyAbbreviation);
        }
    }
  }

  /** A party none of whose rows pass the filter tallies to zero. */
  lemma {:induction false} NoRowsNoTally(rows: seq<ResultRow>, ids: seq<string>, party: string)
    requires party !in Parties(rows, ids)
    ensures Tally(rows, ids, party) == 0
    decreases |rows|
  {
    if |rows| > 0 {
      var front := rows[..|rows| - 1];
      var last := rows[|rows| - 1];
      assert rows == front + [last];
      SplitLast(front, last, ids, party);
      NoRowsNoTally(front, ids, party);
    }
  }

  /** The GROUP BY query: groups for every party among the filtered rows. */
  function GroupSum(rows: seq<ResultRow>, ids: seq<string>): (groups: seq<Group>)
    ensures Summarizes(groups, rows, ids)
    decreases |rows|
  {
    if |rows| == 0 then []
    else
      var front := rows[..|rows| - 1];
      var last := rows[|rows| - 1];
      var groups := GroupSum(front, ids);
      assert rows == front + [last];
      AccumulateSummarizes(groups, front, last, ids);
      Accumulate(groups, last, ids)
  }

  /** Rows outside the filter have no influence on the grouping at all. */
  lemma {:induction false} GroupSumOnlyKept(rows: seq<ResultRow>, ids: seq<string>)
    ensures GroupSum(rows, ids) == GroupSum(Keep(rows, ids), ids)
    decreases |rows|
  {
    if |rows| > 0 {
      var front := rows[..|rows| - 1];
      var last := rows[|rows| - 1];
      GroupSumOnlyKept(front, ids);
      if last.pollingUnitUniqueid in ids {
        var kept := Keep(front, ids) + [last];
        assert kept[..|kept| - 1] == Keep(front, ids);
      }
    }
  }

  lemma {:induction false} KeepNone(rows: seq<ResultRow>, ids: seq<string>)
    requires forall i :: 0 <= i < |rows| ==> rows[i].pollingUnitUniqueid !in ids
    ensures Keep(rows, ids) == []
    decreases |rows|
  {
    if |rows| > 0 {
      KeepNone(rows[..|rows| - 1], ids);
    }
  }

  lemma {:induction false} KeepAppend(a: seq<ResultRow>, b: seq<ResultRow>, ids: seq<string>)
    ensures Keep(a + b, ids) == Keep(a, ids) + Keep(b, ids)
    decreases |b|
  {
    if |b| == 0 {
      assert a + b == a;
    } else {
      var front := b[..|b| - 1];
      var last := b[|b| - 1];
      assert (a + b)[..|a + b| - 1] == a + front;
      KeepAppend(a, front, ids);
    }
  }

  /** Rows that all pass the filter are all kept. */
  lemma {:induction false} KeepAll(rows: seq<ResultRow>, ids: seq<string>)
    requires forall i :: 0 <= i < |rows| ==> rows[i].pollingUnitUniqueid in ids
    ensures Keep(rows, ids) == rows
    decreases |rows|
  {
    if |rows| > 0 {
      KeepAll(rows[..|rows| - 1], ids);
    }
  }

  /** Two tables that differ only in rows outside the filter keep the same rows. */
  lemma {:induction false} KeepPointwise(a: seq<ResultRow>, b: seq<ResultRow>, ids: seq<string>)
    requires |a| == |b|
    requires forall i :: 0 <= i < |a| ==>
               a[i] == b[i] || (a[i].pollingUnitUniqueid !in ids && b[i].pollingUnitUniqueid !in ids)
    ensures Keep(a, ids) == Keep(b, ids)
    decreases |a|
  {
    if |a| > 0 {
      KeepPointwise(a[..|a| - 1], b[..|b| - 1], ids);
    }
  }
}

=== FILE: decimal.dfy ===
/** Python's `str(int)`: the decimal rendering of an integer.

    Polling-unit result rows do not reference their polling unit by integer:
    they hold the unit's surrogate id rendered as a string, and every join in
    the routers compares strings.  This module defines that rendering, a
    parser for it, and proves the round trip, from which it follows that two
    ids render alike exactly when they are equal. */
module Decimal {

  predicate IsDigit(c: char) {
    '0' <= c <= '9'
  }

  function DigitChar(d: nat): (c: char)
    requires d < 10
    ensures IsDigit(c)
  {
    "0123456789"[d]
  }

  function DigitValue(c: char): (d: nat)
    requires IsDigit(c)
    ensures d < 10
  {
    (c as int - '0' as int) as nat
  }

  lemma DigitRoundTrip(d: nat)
    requires d < 10
    ensures DigitValue(DigitChar(d)) == d
  {
  }

  predicate AllDigits(s: string) {
    forall i :: 0 <= i < |s| ==> IsDigit(s[i])
  }

  /** Decimal digits of a natural number, most significant first, no leading zeros. */
  function NatToString(n: nat): (s: string)
    ensures |s| > 0
    ensures AllDigits(s)
    ensures s[0] == '0' <==> n == 0
    decreases n
  {
    if n < 10 then [DigitChar(n)] else NatToString(n / 10) + [DigitChar(n % 10)]
  }

  /** `str(i)` for a Python int: a '-' sign before the digits of a negative value. */
  function IntToString(i: int): (s: string)
    ensures |s| > 0
    ensures (s[0] == '-') <==> i < 0
    ensures i >= 0 ==> (s[0] == '0' <==> i == 0)
    ensures i < 0 ==> |s| > 1 && s[1] != '0'
  {
    if i < 0 then "-" + NatToString(-i) else NatToString(i)
  }

  /** Value of a string of decimal digits (the empty string reads as 0). */
  function ParseNat(s: string): nat
    requires AllDigits(s)
    decreases |s|
  {
    if |s| == 0 then 0 else ParseNat(s[..|s| - 1]) * 10 + DigitValue(s[|s| - 1])
  }

  /** Inverse of IntToString on its range: an optional '-' followed by digits. */
  function ParseInt(s: string): int
    requires |s| > 0
    requires s[0] == '-' ==> AllDigits(s[1..])
    requires s[0] != '-' ==> AllDigits(s)
  {
    if s[0] == '-' then -(ParseNat(s[1..]) as int) else ParseNat(s)
  }

  lemma {:induction false} NatRoundTrip(n: nat)
    ensures ParseNat(NatToString(n)) == n
    decreases n
  {
    var s := NatToString(n);
    if n < 10 {
      DigitRoundTrip(n);
      assert s[..|s| - 1] == [];
    } else {
      NatRoundTrip(n / 10);
      var prefix := NatToString(n / 10);
      assert s[..|s| - 1] == prefix;
      assert s[|s| - 1] == DigitChar(n % 10);
      DigitRoundTrip(n % 10);
    }
  }

  /** The rendering of a negative integer: a '-' before the digits of its magnitude. */
  lemma NegativeRoundTrip(n: nat)
    requires n > 0
    ensures var s := "-" + NatToString(n);
            s[0] == '-' && AllDigits(s[1..]) && ParseInt(s) == -(n as int)
  {
    var digits := NatToString(n);
    NatRoundTrip(n);
    assert ("-" + digits)[1..] == digits;
  }

  /** The rendering of a non-negative integer: its digits, with no sign. */
  lemma NonNegativeRoundTrip(n: nat)
    ensures var s := NatToString(n);
            s[0] != '-' && AllDigits(s) && ParseInt(s) == n
  {
    NatRoundTrip(n);
    assert IsDigit(NatToString(n)[0]);
  }

  /** Parsing what `str` rendered gives back the integer. */
  lemma IntRoundTrip(i: int)
    ensures var s := IntToString(i);
            (s[0] == '-' ==> AllDigits(s[1..])) && (s[0] != '-' ==> AllDigits(s)) &&
            ParseInt(s) == i
  {
    if i < 0 {
      NegativeRoundTrip(-i);
      assert IntToString(i) == "-" + NatToString(-i);
    } else {
      NonNegativeRoundTrip(i);
      assert IntToString(i) == NatToString(i);
    }
  }

  /** Two integers render to the same string exactly when they are equal. */
  lemma IntToStringInjective(a: int, b: int)
    ensures IntToString(a) == IntToString(b) <==> a == b
  {
    if IntToString(a) == IntToString(b) {
      IntRoundTrip(a);
      IntRoundTrip(b);
    }
  }
}

=== FILE: lgas.dfy ===
/** The LGA router: the list of LGAs ordered by name, and the per-LGA
    summary that sums polling-unit results party by party. Both are reads:
    they take the database and return a response, and change nothing. */
module Lgas {
  import opened Models
  import opened Schemas
  import opened Aggregate
  import Decimal

  // ---------------------------------------------------------------------------
  // GET /lgas/ : all LGAs ordered by name

  /** Names compared character by character; a proper prefix sorts first. */
  predicate NameLe(a: string, b: string)
    decreases |a|
  {
    |a| == 0 || (|b| > 0 && (a[0] < b[0] || (a[0] == b[0] && NameLe(a[1..], b[1..]))))
  }

  lemma {:induction false} NameLeTotal(a: string, b: string)
    ensures NameLe(a, b) || NameLe(b, a)
    decreases |a|
  {
    if |a| > 0 && |b| > 0 && a[0] == b[0] {
      NameLeTotal(a[1..], b[1..]);
    }
  }

  lemma {:induction false} NameLeTransitive(a: string, b: string, c: string)
    requires NameLe(a, b) && NameLe(b, c)
    ensures NameLe(a, c)
    decreases |a|
  {
    if |a| > 0 && a[0] == b[0] && b[0] == c[0] {
      NameLeTransitive(a[1..], b[1..], c[1..]);
    }
  }

  predicate SortedByName(infos: seq<LgaInfo>) {
    forall i, j :: 0 <= i < j < |infos| ==> NameLe(infos[i].lgaName, infos[j].lgaName)
  }

  /** Insert one entry into a name-ordered list, keeping it ordered. */
  function InsertByName(x: LgaInfo, sorted: seq<LgaInfo>): (r: seq<LgaInfo>)
    requires SortedByName(sorted)
    ensures SortedByName(r)
    ensures multiset(r) == multiset(sorted) + multiset{x}
    decreases |sorted|
  {
    if |sorted| == 0 then [x]
    else if NameLe(x.lgaName, sorted[0].lgaName) then
      LeadsAll(x, sorted);
      [x] + sorted
    else
      var rest := InsertByName(x, sorted[1..]);
      NameLeTotal(x.lgaName, sorted[0].lgaName);
      HeadLeadsInsertion(sorted, x, rest);
      assert sorted == [sorted[0]] + sorted[1..];
      [sorted[0]] + rest
  }

  lemma LeadsAll(x: LgaInfo, sorted: seq<LgaInfo>)
    requires SortedByName(sorted) && |sorted| > 0
    requires NameLe(x.lgaName, sorted[0].lgaName)
    ensures SortedByName([x] + sorted)
  {
    forall j | 0 <= j < |sorted|
      ensures NameLe(x.lgaName, sorted[j].lgaName)
    {
      if j > 0 {
        NameLeTransitive(x.lgaName, sorted[0].lgaName, sorted[j].lgaName);
      }
    }
    var r := [x] + sorted;
    forall i, j | 0 <= i < j < |r|
      ensures NameLe(r[i].lgaName, r[j].lgaName)
    {
      assert r[j] == sorted[j - 1];
      if i > 0 {
        assert r[i] == sorted[i - 1];
      }
    }
  }

  lemma HeadLeadsInsertion(sorted: seq<LgaInfo>, x: LgaInfo, rest: seq<LgaInfo>)
    requires SortedByName(sorted) && |sorted| > 0
    requires NameLe(sorted[0].lgaName, x.lgaName)
    requires SortedByName(rest)
    requires multiset(rest) == multiset(sorted[1..]) + multiset{x}
    ensures SortedByName([sorted[0]] + rest)
  {
    var r := [sorted[0]] + rest;
    forall k | 0 <= k < |rest|
      ensures NameLe(sorted[0].lgaName, rest[k].lgaName)
    {
      assert rest[k] in multiset(rest);
      if rest[k] != x {
        assert rest[k] in sorted[1..];
        var m :| 0 <= m < |sorted[1..]| && sorted[1..][m] == rest[k];
        assert sorted[m + 1] == rest[k];
      }
    }
    forall i, j | 0 <= i < j < |r|
      ensures NameLe(r[i].lgaName, r[j].lgaName)
    {
      assert r[j] == rest[j - 1];
      if i > 0 {
        assert r[i] == rest[i - 1];
      }
    }
  }

  /** Insertion sort by name. */
  function SortByName(infos: seq<LgaInfo>): (r: seq<LgaInfo>)
    ensures SortedByName(r)
    ensures multiset(r) == multiset(infos)
    decreases |infos|
  {
    if |infos| == 0 then []
    else
      assert infos == [infos[0]] + infos[1..];
      InsertByName(infos[0], SortByName(infos[1..]))
  }

  /** The (lga_id, lga_name) projection of every stored LGA, in table order. */
  function Infos(lgas: seq<Lga>): seq<LgaInfo> {
    seq(|lgas|, i requires 0 <= i < |lgas| => LgaInfo(lgas[i].lgaId, lgas[i].lgaName))
  }

  /** `get_all_lgas`: one entry per stored LGA, ordered by name. */
  function AllLgas(db: Database): (r: seq<LgaInfo>)
    ensures SortedByName(r)
    ensures multiset(r) == multiset(Infos(db.lgas))
    ensures |r| == |db.lgas|
  {
    var r := SortByName(Infos(db.lgas));
    assert |r| == |multiset(r)|;
    r
  }

  // ---------------------------------------------------------------------------
  // GET /lgas/{lga_id}/summary

  /** `pu_ids`: `str(uniqueid)` of every polling unit whose `lga_id` is the requested one. */
  function UnitRefs(units: seq<PollingUnit>, lgaId: int): (ids: seq<string>)
    ensures forall s :: s in ids <==>
              exists u :: u in units && u.lgaId == lgaId && s == Decimal.IntToString(u.uniqueid)
    ensures |ids| == 0 <==> forall u :: u in units ==> u.lgaId != lgaId
  {
    if |units| == 0 then []
    else
      var rest := UnitRefs(units[1..], lgaId);
      assert forall u :: u in units <==> u == units[0] || u in units[1..];
      if units[0].lgaId == lgaId then [Decimal.IntToString(units[0].uniqueid)] + rest else rest
  }

  /** `int(total_score) if total_score else 0`: Python truthiness sends both
      NULL and 0 to 0, so the reported total is the group's sum with NULL read as 0. */
  function Reported(sum: Option<int>): (r: int)
    ensures r == ScoreOrZero(sum)
    ensures r == 0 <==> sum.None? || sum.value == 0
  {
    if sum.Some? && sum.value != 0 then sum.value else 0
  }

  function Format(groups: seq<Group>): (totals: seq<PartyResult>)
    ensures |totals| == |groups|
    ensures forall i :: 0 <= i < |groups| ==>
              totals[i].partyAbbreviation == groups[i].party && totals[i].partyScore == ScoreOrZero(groups[i].sum)
  {
    seq(|groups|, i requires 0 <= i < |groups| => PartyResult(groups[i].party, Reported(groups[i].sum)))
  }

  lemma FormatParties(groups: seq<Group>)
    ensures var totals := Format(groups);
            (set i | 0 <= i < |totals| :: totals[i].partyAbbreviation) == GroupParties(groups)
  {
    var totals := Format(groups);
    forall p | p in GroupParties(groups)
      ensures p in (set i | 0 <= i < |totals| :: totals[i].partyAbbreviation)
    {
      var i :| 0 <= i < |groups| && groups[i].party == p;
      assert totals[i].partyAbbreviation == p;
    }
  }

  /** The totals hold one entry per party among the rows that pass the
      filter, each carrying the sum of that party's non-NULL scores. */
  predicate Reports(totals: seq<PartyResult>, rows: seq<ResultRow>, ids: seq<string>) {
    && (forall i, j :: 0 <= i < j < |totals| ==> totals[i].partyAbbreviation != totals[j].partyAbbreviation)
    && (set i | 0 <= i < |totals| :: totals[i].partyAbbreviation) == Parties(rows, ids)
    && (forall i :: 0 <= i < |totals| ==> totals[i].partyScore == Tally(rows, ids, totals[i].partyAbbreviation))
  }

  /** `get_lga_summary`. */
  function Summary(db: Database, lgaId: int): (r: Response<LgaSummary>)
    ensures r.Err? <==> forall l :: l in db.lgas ==> l.lgaId != lgaId
    ensures r.Err? ==> r.failure == NotFound
    ensures r.Ok? ==> r.value.lgaId == lgaId && r.value.lgaName == FindLga(db.lgas, lgaId).value.lgaName
    ensures r.Ok? ==> Reports(r.value.partyTotals, db.results, UnitRefs(db.units, lgaId))
    ensures r.Ok? && (forall u :: u in db.units ==> u.lgaId != lgaId) ==> r.value.partyTotals == []
  {
    match FindLga(db.lgas, lgaId)
    case None => Err(NotFound)
    case Some(lga) =>
      var ids := UnitRefs(db.units, lgaId);
      if |ids| == 0 then
        Ok(LgaSummary(lgaId, lga.lgaName, []))
      else
        var groups := GroupSum(db.results, ids);
        var totals := Format(groups);
        FormatParties(groups);
        Ok(LgaSummary(lgaId, lga.lgaName, totals))
  }

  /** An LGA whose polling units have no result rows at all has an empty summary. */
  lemma NoResultsEmptySummary(db: Database, lgaId: int)
    requires exists l :: l in db.lgas && l.lgaId == lgaId
    requires forall r :: r in db.results ==> r.pollingUnitUniqueid !in UnitRefs(db.units, lgaId)
    ensures Summary(db, lgaId).Ok? && Summary(db, lgaId).value.partyTotals == []
  {
    var ids := UnitRefs(db.units, lgaId);
    KeepNone(db.results, ids);
    GroupSumOnlyKept(db.results, ids);
  }

  /** Isolation: the summary depends only on the rows of the LGA's own polling units. */
  lemma SummaryIsolation(db1: Database, db2: Database, lgaId: int)
    requires db1.lgas == db2.lgas && db1.units == db2.units
    requires Keep(db1.results, UnitRefs(db1.units, lgaId)) == Keep(db2.results, UnitRefs(db2.units, lgaId))
    ensures Summary(db1, lgaId) == Summary(db2, lgaId)
  {
    var ids := UnitRefs(db1.units, lgaId);
    GroupSumOnlyKept(db1.results, ids);
    GroupSumOnlyKept(db2.results, ids);
  }

  /** A result row of a polling unit in a different LGA never affects the
      summary, wherever it sits in the table. */
  lemma ForeignRowIgnored(db: Database, lgaId: int, u: PollingUnit, row: ResultRow,
                          before: seq<ResultRow>, after: seq<ResultRow>)
    requires UniqueUnitIds(db.units)
    requires u in db.units && u.lgaId != lgaId
    requires row.pollingUnitUniqueid == Decimal.IntToString(u.uniqueid)
    ensures Summary(db.(results := before + [row] + after), lgaId) ==
            Summary(db.(results := before + after), lgaId)
  {
    var ids := UnitRefs(db.units, lgaId);
    if row.pollingUnitUniqueid in ids {
      var v :| v in db.units && v.lgaId == lgaId && row.pollingUnitUniqueid == Decimal.IntToString(v.uniqueid);
      Decimal.IntToStringInjective(u.uniqueid, v.uniqueid);
      var i :| 0 <= i < |db.units| && db.units[i] == u;
      assert false;
    }
    KeepAppend(before + [row], after, ids);
    KeepAppend(before, [row], ids);
    KeepAppend(before, after, ids);
    assert Keep([row], ids) == [] by {
      assert [row][..0] == [];
    }
    SummaryIsolation(db.(results := before + [row] + after), db.(results := before + after), lgaId);
  }
}

=== FILE: models.dfy ===
/** The tables the routers read and write, as immutable sequences of records.

    Field shapes follow the ORM classes: `PollingUnit` and `Lga` carry a
    surrogate `uniqueid` and the business keys they are joined on; an
    `AnnouncedPUResult` row references its polling unit by the unit's
    surrogate id rendered as a string, and its score column is nullable.
    Columns the core never reads (descriptions, coordinates, audit fields of
    the reference tables) are omitted. */
module Models {

  datatype Option<+T> = None | Some(value: T)

  /** An opaque clock reading, as produced by `datetime.now()`. */
  datatype Timestamp = Timestamp(instant: int)

  datatype PollingUnit = PollingUnit(
    uniqueid: int,
    pollingUnitId: int,
    wardId: int,
    lgaId: int,
    pollingUnitNumber: Option<string>,
    pollingUnitName: Option<string>)

  datatype Lga = Lga(
    uniqueid: int,
    lgaId: int,
    lgaName: string,
    stateId: int)

  datatype ResultRow = ResultRow(
    pollingUnitUniqueid: string,
    partyAbbreviation: string,
    partyScore: Option<int>,
    enteredByUser: Option<string>,
    dateEntered: Option<Timestamp>,
    userIpAddress: Option<string>)

  /** The store: reference data (LGAs, polling units) and the result fact table. */
  datatype Database = Database(
    lgas: seq<Lga>,
    units: seq<PollingUnit>,
    results: seq<ResultRow>)

  /** `uniqueid` is the primary key of the polling-unit table. */
  predicate UniqueUnitIds(units: seq<PollingUnit>) {
    forall i, j :: 0 <= i < j < |units| ==> units[i].uniqueid != units[j].uniqueid
  }

  /** A row's upsert key: (polling unit reference, party abbreviation). */
  predicate HasKey(row: ResultRow, unitRef: string, party: string) {
    row.pollingUnitUniqueid == unitRef && row.partyAbbreviation == party
  }

  /** `query(LGA).filter(lga_id == id).first()`, taking storage order as table order. */
  function FindLga(lgas: seq<Lga>, lgaId: int): (r: Option<Lga>)
    ensures r.None? <==> forall l :: l in lgas ==> l.lgaId != lgaId
    ensures r.Some? ==> r.value in lgas && r.value.lgaId == lgaId
    ensures r.Some? ==> exists k :: 0 <= k < |lgas| && lgas[k] == r.value &&
                          forall j :: 0 <= j < k ==> lgas[j].lgaId != lgaId
  {
    if |lgas| == 0 then None
    else if lgas[0].lgaId == lgaId then Some(lgas[0])
    else
      var r := FindLga(lgas[1..], lgaId);
      assert forall l :: l in lgas ==> l == lgas[0] || l in lgas[1..];
      r
  }

  /** `query(PollingUnit).filter(uniqueid == id).first()`. */
  function FindUnit(units: seq<PollingUnit>, uniqueid: int): (r: Option<PollingUnit>)
    ensures r.None? <==> forall u :: u in units ==> u.uniqueid != uniqueid
    ensures r.Some? ==> r.value in units && r.value.uniqueid == uniqueid
    ensures r.Some? ==> exists k :: 0 <= k < |units| && units[k] == r.value &&
                          forall j :: 0 <= j < k ==> units[j].uniqueid != uniqueid
  {
    if |units| == 0 then None
    else if units[0].uniqueid == uniqueid then Some(units[0])
    else
      var r := FindUnit(units[1..], uniqueid);
      assert forall u :: u in units ==> u == units[0] || u in units[1..];
      r
  }

  /** Index of the first row with the given upsert key, if any. */
  function FirstRow(rows: seq<ResultRow>, unitRef: string, party: string): (r: Option<nat>)
    ensures r.Some? ==> r.value < |rows| && HasKey(rows[r.value], unitRef, party)
  {
    FirstRowFrom(rows, unitRef, party, 0)
  }

  function FirstRowFrom(rows: seq<ResultRow>, unitRef: string, party: string, from: nat): (r: Option<nat>)
    requires from <= |rows|
    ensures r.Some? ==> from <= r.value < |rows| && HasKey(rows[r.value], unitRef, party)
    decreases |rows| - from
  {
    if from == |rows| then None
    else if HasKey(rows[from], unitRef, party) then Some(from)
    else FirstRowFrom(rows, unitRef, party, from + 1)
  }

  lemma {:induction false} FirstRowFromSpec(rows: seq<ResultRow>, unitRef: string, party: string, from: nat)
    requires from <= |rows|
    ensures var r := FirstRowFrom(rows, unitRef, party, from);
            && (r.None? <==> forall i :: from <= i < |rows| ==> !HasKey(rows[i], unitRef, party))
            && (r.Some? ==> forall j :: from <= j < r.value ==> !HasKey(rows[j], unitRef, party))
    decreases |rows| - from
  {
    if from < |rows| {
      FirstRowFromSpec(rows, unitRef, party, from + 1);
    }
  }

  /** The lookup returns the first row with the key, and nothing only when no row has it. */
  lemma FirstRowSpec(rows: seq<ResultRow>, unitRef: string, party: string)
    ensures var r := FirstRow(rows, unitRef, party);
            && (r.None? <==> forall i :: 0 <= i < |rows| ==> !HasKey(rows[i], unitRef, party))
            && (r.Some? ==> forall j :: 0 <= j < r.value ==> !HasKey(rows[j], unitRef, party))
  {
    FirstRowFromSpec(rows, unitRef, party, 0);
  }
}

=== FILE: polling_units.dfy ===
/** The polling-unit router: reading one unit's announced results, and
    storing a batch of party results for a unit.

    The store runs the upsert fold of module Upsert over the rows in storage
    and then commits; whether the commit succeeds is a parameter, as is the
    clock reading taken for each entry. A failed commit is rolled back, so
    the database is returned as it was. */
module PollingUnits {
  import opened Models
  import opened Schemas
  import opened Aggregate
  import opened Upsert
  import Decimal
  import Lgas

  // ---------------------------------------------------------------------------
  // GET /polling-units/{polling_unit_id}

  /** Every row carries a score: a NULL score cannot be rendered as the
      integer the response schema requires. */
  predicate AllScored(rows: seq<ResultRow>) {
    forall k :: 0 <= k < |rows| ==> rows[k].partyScore.Some?
  }

  /** `results` lists `rows` one for one, in order, with their raw scores. */
  predicate Lists(results: seq<PartyResult>, rows: seq<ResultRow>) {
    && |results| == |rows|
    && forall k :: 0 <= k < |rows| ==>
         results[k].partyAbbreviation == rows[k].partyAbbreviation &&
         rows[k].partyScore == Some(results[k].partyScore)
  }

  /** The list comprehension over the unit's rows, validated against the response schema. */
  function Render(rows: seq<ResultRow>): (r: Response<seq<PartyResult>>)
    ensures r.Ok? <==> AllScored(rows)
    ensures r.Err? ==> r.failure == InvalidResponse
    ensures r.Ok? ==> Lists(r.value, rows)
  {
    if AllScored(rows) then
      Ok(seq(|rows|, k requires 0 <= k < |rows| && rows[k].partyScore.Some? =>
               PartyResult(rows[k].partyAbbreviation, rows[k].partyScore.value)))
    else Err(InvalidResponse)
  }

  /** `get_polling_unit_results`. */
  function GetResults(db: Database, id: int): (r: Response<PollingUnitResult>)
    ensures FindUnit(db.units, id).None? ==> r == Err(NotFound)
    ensures r.Err? <==>
              FindUnit(db.units, id).None? || !AllScored(Keep(db.results, [Decimal.IntToString(id)]))
    ensures r.Err? && FindUnit(db.units, id).Some? ==> r.failure == InvalidResponse
    ensures r.Ok? ==> var u := FindUnit(db.units, id).value;
              && r.value.pollingUnitId == id
              && r.value.pollingUnitName == u.pollingUnitName
              && r.value.pollingUnitNumber == u.pollingUnitNumber
              && r.value.lgaId == u.lgaId
    ensures r.Ok? ==> Lists(r.value.results, Keep(db.results, [Decimal.IntToString(id)]))
  {
    match FindUnit(db.units, id)
    case None => Err(NotFound)
    case Some(u) =>
      match Render(Keep(db.results, [Decimal.IntToString(id)]))
      case Err(f) => Err(f)
      case Ok(results) =>
        Ok(PollingUnitResult(u.uniqueid, u.pollingUnitName, u.pollingUnitNumber, u.lgaId, results))
  }

  /** The listed results are exactly the unit's stored rows: each of its rows
      is listed, and nothing else is. */
  lemma GetResultsExact(db: Database, id: int)
    requires GetResults(db, id).Ok?
    ensures var results := GetResults(db, id).value.results;
            && (forall row :: row in db.results && row.pollingUnitUniqueid == Decimal.IntToString(id) ==>
                  row.partyScore.Some? && PartyResult(row.partyAbbreviation, row.partyScore.value) in results)
            && (forall e :: e in results ==>
                  ResultRowFor(db.results, Decimal.IntToString(id), e))
  {
    var unitRef := Decimal.IntToString(id);
    var rows := Keep(db.results, [unitRef]);
    var results := GetResults(db, id).value.results;
    forall row | row in db.results && row.pollingUnitUniqueid == unitRef
      ensures row.partyScore.Some? && PartyResult(row.partyAbbreviation, row.partyScore.value) in results
    {
      assert row in rows;
      var k :| 0 <= k < |rows| && rows[k] == row;
      assert results[k] == PartyResult(row.partyAbbreviation, row.partyScore.value);
    }
    forall e | e in results
      ensures ResultRowFor(db.results, unitRef, e)
    {
      var k :| 0 <= k < |results| && results[k] == e;
      assert rows[k] in rows;
    }
  }

  /** Some stored row of the unit carries this party and score. */
  predicate ResultRowFor(rows: seq<ResultRow>, unitRef: string, e: PartyResult) {
    exists row :: row in rows && row.pollingUnitUniqueid == unitRef &&
                  row.partyAbbreviation == e.partyAbbreviation && row.partyScore == Some(e.partyScore)
  }

  // ---------------------------------------------------------------------------
  // POST /polling-units/{polling_unit_id}/results

  /** What the request produces: the reply, and the database after it. */
  datatype Submission = Submission(reply: Response<StoreResultResponse>, db: Database)

  const StoredPrefix: string := "Successfully stored "
  const StoredSuffix: string := " party results"

  /** The success message, which carries the number of entries processed. */
  function StoredMessage(count: nat): (m: string)
    ensures |m| > |StoredPrefix| + |StoredSuffix|
    ensures m[..|StoredPrefix|] == StoredPrefix
    ensures m[|m| - |StoredSuffix|..] == StoredSuffix
  {
    StoredPrefix + Decimal.IntToString(count) + StoredSuffix
  }

  /** Between the fixed prefix and suffix the message holds a decimal numeral
      that reads back as the count. */
  lemma StoredMessageCount(count: nat)
    ensures var m := StoredMessage(count);
            var digits := m[|StoredPrefix|..|m| - |StoredSuffix|];
            Decimal.AllDigits(digits) && Decimal.ParseNat(digits) == count
  {
    var m := StoredMessage(count);
    assert m[|StoredPrefix|..|m| - |StoredSuffix|] == Decimal.IntToString(count);
    Decimal.NatRoundTrip(count);
  }

  /** The message determines the count it reports. */
  lemma StoredMessageInjective(a: nat, b: nat)
    ensures StoredMessage(a) == StoredMessage(b) <==> a == b
  {
    StoredMessageCount(a);
    StoredMessageCount(b);
  }

  /** The table the commit writes: the stored rows as the loop left them,
      then the rows it added, in the order they were added. */
  function Committed(pre: seq<ResultRow>, unitRef: string, req: StoreResultRequest,
                     stamps: seq<Timestamp>): (rows: seq<ResultRow>)
    requires |stamps| == |req.partyResults|
    ensures |pre| <= |rows| <= |pre| + |req.partyResults|
    ensures forall i :: 0 <= i < |pre| ==> SameKey(rows[i], pre[i])
  {
    var n := |req.partyResults|;
    var loaded := Loaded(pre, unitRef, req, stamps, n);
    var rows := loaded + Pending(pre, unitRef, req, stamps, n);
    assert forall i :: 0 <= i < |pre| ==> rows[i] == loaded[i];
    rows
  }

  /** `store_polling_unit_results`: `stamps[k]` is the clock reading taken
      while processing entry `k`, and `commitOk` says whether the commit
      succeeds. */
  function Store(db: Database, id: int, req: StoreResultRequest, stamps: seq<Timestamp>,
                 commitOk: bool): (s: Submission)
    requires |stamps| == |req.partyResults|
    ensures s.reply.Ok? <==> FindUnit(db.units, id).Some? && commitOk
    ensures FindUnit(db.units, id).None? ==> s.reply == Err(NotFound)
    ensures FindUnit(db.units, id).Some? && !commitOk ==> s.reply == Err(StorageFailure)
    ensures s.reply.Err? ==> s.db == db
    ensures s.reply.Ok? ==>
              s.reply.value == StoreResultResponse(true, StoredMessage(|req.partyResults|), Decimal.IntToString(id))
    ensures s.db.lgas == db.lgas && s.db.units == db.units
    ensures |db.results| <= |s.db.results| <= |db.results| + |req.partyResults|
    ensures forall i :: 0 <= i < |db.results| ==> SameKey(s.db.results[i], db.results[i])
  {
    match FindUnit(db.units, id)
    case None => Submission(Err(NotFound), db)
    case Some(_) =>
      var unitRef := Decimal.IntToString(id);
      var rows := Committed(db.results, unitRef, req, stamps);
      if commitOk then
        Submission(Ok(StoreResultResponse(true, StoredMessage(|req.partyResults|), unitRef)),
                   db.(results := rows))
      else
        Submission(Err(StorageFailure), db)
  }

  // ---------------------------------------------------------------------------
  // What a successful store does to the result table

  /** A stored row changes only if it is the first row of the unit's key for
      a submitted party, and then it carries that party's LAST entry: score,
      user, clock reading and address are overwritten, the key is kept. */
  lemma StoreUpdatesExisting(db: Database, id: int, req: StoreResultRequest, stamps: seq<Timestamp>, i: nat)
    requires |stamps| == |req.partyResults|
    requires FindUnit(db.units, id).Some?
    requires i < |db.results|
    ensures var last := LastEntry(req.partyResults, |req.partyResults|, db.results[i].partyAbbreviation);
            Store(db, id, req, stamps, true).db.results[i] ==
              if FirstOfKey(db.results, Decimal.IntToString(id), i) && last.Some?
              then Updated(db.results[i], req.partyResults[last.value], req, stamps[last.value])
              else db.results[i]
  {
    var unitRef := Decimal.IntToString(id);
    var n := |req.partyResults|;
    LoadedRow(db.results, unitRef, req, stamps, n, i);
    assert Committed(db.results, unitRef, req, stamps)[i] == Loaded(db.results, unitRef, req, stamps, n)[i];
  }

  /** Frame: a row of another polling unit, or of a party the request does
      not name, is left exactly as it was. */
  lemma StoreFrame(db: Database, id: int, req: StoreResultRequest, stamps: seq<Timestamp>, i: nat)
    requires |stamps| == |req.partyResults|
    requires FindUnit(db.units, id).Some?
    requires i < |db.results|
    requires db.results[i].pollingUnitUniqueid != Decimal.IntToString(id) ||
             forall k :: 0 <= k < |req.partyResults| ==>
               req.partyResults[k].partyAbbreviation != db.results[i].partyAbbreviation
    ensures Store(db, id, req, stamps, true).db.results[i] == db.results[i]
  {
    StoreUpdatesExisting(db, id, req, stamps, i);
  }

  /** A successful store writes the stored rows as the loop left them, then
      the rows the loop added. */
  lemma StoreWritesCommitted(db: Database, id: int, req: StoreResultRequest, stamps: seq<Timestamp>)
    requires |stamps| == |req.partyResults|
    requires FindUnit(db.units, id).Some?
    ensures Store(db, id, req, stamps, true).db.results ==
              Committed(db.results, Decimal.IntToString(id), req, stamps)
  {
  }

  /** A row past the stored ones is one the loop added. */
  lemma CommittedAppended(pre: seq<ResultRow>, unitRef: string, req: StoreResultRequest,
                          stamps: seq<Timestamp>, j: nat)
    requires |stamps| == |req.partyResults|
    requires |pre| <= j < |Committed(pre, unitRef, req, stamps)|
    ensures Committed(pre, unitRef, req, stamps)[j] in Pending(pre, unitRef, req, stamps, |req.partyResults|)
  {
    var pending := Pending(pre, unitRef, req, stamps, |req.partyResults|);
    assert Committed(pre, unitRef, req, stamps)[j] == pending[j - |pre|];
  }

  /** Every appended row belongs to this polling unit, is for a submitted
      party that had no stored row under the unit's key, and records the
      request's user and address. */
  lemma StoreAppends(db: Database, id: int, req: StoreResultRequest, stamps: seq<Timestamp>, j: nat)
    requires |stamps| == |req.partyResults|
    requires FindUnit(db.units, id).Some?
    requires |db.results| <= j < |Store(db, id, req, stamps, true).db.results|
    ensures var row := Store(db, id, req, stamps, true).db.results[j];
            && row.pollingUnitUniqueid == Decimal.IntToString(id)
            && FirstRow(db.results, Decimal.IntToString(id), row.partyAbbreviation).None?
            && LastEntry(req.partyResults, |req.partyResults|, row.partyAbbreviation).Some?
            && row.enteredByUser == Some(req.enteredByUser)
            && row.userIpAddress == StoredIp(req.userIpAddress)
  {
    var unitRef := Decimal.IntToString(id);
    var n := |req.partyResults|;
    var rows := Committed(db.results, unitRef, req, stamps);
    StoreWritesCommitted(db, id, req, stamps);
    CommittedAppended(db.results, unitRef, req, stamps, j);
    PendingRows(db.results, unitRef, req, stamps, n, rows[j]);
  }

  /** For a party with no stored row under the unit's key, the appended rows
      for it carry exactly the submitted scores, in request order: a party
      named twice in one request gets two rows. */
  lemma StoreAppendedScores(db: Database, id: int, req: StoreResultRequest, stamps: seq<Timestamp>, party: string)
    requires |stamps| == |req.partyResults|
    requires FindUnit(db.units, id).Some?
    requires FirstRow(db.results, Decimal.IntToString(id), party).None?
    ensures var rows := Store(db, id, req, stamps, true).db.results;
            PartyScores(rows[|db.results|..], party) == EntryScores(req.partyResults, |req.partyResults|, party)
  {
    var unitRef := Decimal.IntToString(id);
    var n := |req.partyResults|;
    var rows := Committed(db.results, unitRef, req, stamps);
    assert rows[|db.results|..] == Pending(db.results, unitRef, req, stamps, n);
    PendingScores(db.results, unitRef, req, stamps, n, party);
  }

  /** Every row the store writes or rewrites records the request's user and
      address, with an empty address recorded as NULL. */
  lemma StoreRecordsSubmitter(db: Database, id: int, req: StoreResultRequest, stamps: seq<Timestamp>, i: nat)
    requires |stamps| == |req.partyResults|
    requires FindUnit(db.units, id).Some?
    requires i < |Store(db, id, req, stamps, true).db.results|
    requires i >= |db.results| || Store(db, id, req, stamps, true).db.results[i] != db.results[i]
    ensures var row := Store(db, id, req, stamps, true).db.results[i];
            row.enteredByUser == Some(req.enteredByUser) && row.userIpAddress == StoredIp(req.userIpAddress)
  {
    if i < |db.results| {
      StoreUpdatesExisting(db, id, req, stamps, i);
    } else {
      StoreAppends(db, id, req, stamps, i);
    }
  }

  /** With no row yet, a party named twice in one request gets two rows, so
      the table no longer holds one row per key. */
  lemma DuplicatePartyInsertsTwice()
    ensures var db := Database([], [PollingUnit(7, 1, 1, 1, None, None)], []);
            var req := StoreResultRequest([PartyResult("PDP", 10), PartyResult("PDP", 12)], "system", None);
            var rows := Store(db, 7, req, [Timestamp(0), Timestamp(1)], true).db.results;
            && |rows| == 2
            && SameKey(rows[0], rows[1])
            && rows[0].partyScore == Some(10) && rows[1].partyScore == Some(12)
            && !UniqueKeys(rows)
  {
    var req := StoreResultRequest([PartyResult("PDP", 10), PartyResult("PDP", 12)], "system", None);
    var stamps := [Timestamp(0), Timestamp(1)];
    var unitRef := Decimal.IntToString(7);
    assert FirstRow([], unitRef, "PDP").None?;
    assert Pending([], unitRef, req, stamps, 1) == [NewRow(unitRef, req.partyResults[0], req, stamps[0])];
  }

  // ---------------------------------------------------------------------------
  // Properties of the whole operation

  /** Rows outside the stored unit are kept by any filter that excludes the unit. */
  lemma CommittedOutside(pre: seq<ResultRow>, unitRef: string, req: StoreResultRequest,
                         stamps: seq<Timestamp>, ids: seq<string>)
    requires |stamps| == |req.partyResults|
    requires unitRef !in ids
    ensures Keep(Committed(pre, unitRef, req, stamps), ids) == Keep(pre, ids)
  {
    var n := |req.partyResults|;
    var loaded := Loaded(pre, unitRef, req, stamps, n);
    var pending := Pending(pre, unitRef, req, stamps, n);
    forall i | 0 <= i < |pre|
      ensures loaded[i] == pre[i] ||
              (loaded[i].pollingUnitUniqueid !in ids && pre[i].pollingUnitUniqueid !in ids)
    {
      LoadedRow(pre, unitRef, req, stamps, n, i);
    }
    KeepPointwise(loaded, pre, ids);
    forall j | 0 <= j < |pending|
      ensures pending[j].pollingUnitUniqueid !in ids
    {
      PendingRows(pre, unitRef, req, stamps, n, pending[j]);
    }
    KeepNone(pending, ids);
    KeepAppend(loaded, pending, ids);
  }

  /** Storing results for one unit never changes what another unit reads back. */
  lemma StoreElsewhereInvisible(db: Database, id: int, other: int, req: StoreResultRequest,
                                stamps: seq<Timestamp>, commitOk: bool)
    requires |stamps| == |req.partyResults|
    requires other != id
    ensures GetResults(Store(db, id, req, stamps, commitOk).db, other) == GetResults(db, other)
  {
    var unitRef := Decimal.IntToString(id);
    Decimal.IntToStringInjective(id, other);
    if FindUnit(db.units, id).Some? && commitOk {
      CommittedOutside(db.results, unitRef, req, stamps, [Decimal.IntToString(other)]);
    }
  }

  /** Storing results for a unit never changes the summary of another LGA. */
  lemma StoreLeavesOtherLgas(db: Database, id: int, req: StoreResultRequest, stamps: seq<Timestamp>,
                             commitOk: bool, lgaId: int)
    requires |stamps| == |req.partyResults|
    requires UniqueUnitIds(db.units)
    requires FindUnit(db.units, id).Some? ==> FindUnit(db.units, id).value.lgaId != lgaId
    ensures Lgas.Summary(Store(db, id, req, stamps, commitOk).db, lgaId) == Lgas.Summary(db, lgaId)
  {
    if FindUnit(db.units, id).Some? && commitOk {
      var unit := FindUnit(db.units, id).value;
      var unitRef := Decimal.IntToString(id);
      var ids := Lgas.UnitRefs(db.units, lgaId);
      if unitRef in ids {
        var v :| v in db.units && v.lgaId == lgaId && unitRef == Decimal.IntToString(v.uniqueid);
        Decimal.IntToStringInjective(id, v.uniqueid);
        var a :| 0 <= a < |db.units| && db.units[a] == unit;
        assert false;
      }
      CommittedOutside(db.results, unitRef, req, stamps, ids);
      Lgas.SummaryIsolation(Store(db, id, req, stamps, commitOk).db, db, lgaId);
    }
  }

  /** For a unit with no stored rows, the unit's rows after the store are
      one new row per entry, in request order. */
  lemma FreshUnitCommitted(pre: seq<ResultRow>, unitRef: string, req: StoreResultRequest,
                           stamps: seq<Timestamp>)
    requires |stamps| == |req.partyResults|
    requires forall i :: 0 <= i < |pre| ==> pre[i].pollingUnitUniqueid != unitRef
    ensures var rows := Keep(Committed(pre, unitRef, req, stamps), [unitRef]);
            |rows| == |req.partyResults| &&
            forall k :: 0 <= k < |rows| ==> rows[k] == NewRow(unitRef, req.partyResults[k], req, stamps[k])
  {
    var n := |req.partyResults|;
    forall p
      ensures FirstRow(pre, unitRef, p).None?
    {
      FirstRowSpec(pre, unitRef, p);
    }
    PendingAllNew(pre, unitRef, req, stamps, n);
    var loaded := Loaded(pre, unitRef, req, stamps, n);
    var pending := Pending(pre, unitRef, req, stamps, n);
    forall i | 0 <= i < |pre|
      ensures loaded[i] == pre[i]
    {
      LoadedUnchanged(pre, unitRef, req, stamps, n, i);
    }
    assert loaded == pre;
    assert Committed(pre, unitRef, req, stamps) == pre + pending;
    KeepNone(pre, [unitRef]);
    KeepAll(pending, [unitRef]);
    KeepAppend(pre, pending, [unitRef]);
    assert Keep(pre + pending, [unitRef]) == pending;
  }

  /** Listing freshly inserted rows gives back the entries they were made from. */
  lemma ListsFreshRows(results: seq<PartyResult>, rows: seq<ResultRow>, unitRef: string,
                       req: StoreResultRequest, stamps: seq<Timestamp>)
    requires |stamps| == |req.partyResults| == |rows|
    requires forall k :: 0 <= k < |rows| ==> rows[k] == NewRow(unitRef, req.partyResults[k], req, stamps[k])
    requires Lists(results, rows)
    ensures results == req.partyResults
  {
    assert forall k :: 0 <= k < |rows| ==> results[k] == req.partyResults[k];
  }

  /** A unit whose rows are exactly fresh inserts, one per entry, reads back those entries. */
  lemma ReadsBackFresh(after: Database, id: int, req: StoreResultRequest, stamps: seq<Timestamp>)
    requires |stamps| == |req.partyResults|
    requires FindUnit(after.units, id).Some?
    requires var rows := Keep(after.results, [Decimal.IntToString(id)]);
             |rows| == |req.partyResults| &&
             forall k :: 0 <= k < |rows| ==>
               rows[k] == NewRow(Decimal.IntToString(id), req.partyResults[k], req, stamps[k])
    ensures GetResults(after, id).Ok? && GetResults(after, id).value.results == req.partyResults
  {
    var rows := Keep(after.results, [Decimal.IntToString(id)]);
    assert AllScored(rows);
    ListsFreshRows(GetResults(after, id).value.results, rows, Decimal.IntToString(id), req, stamps);
  }

  /** A unit with no stored results reads back exactly the submitted entries,
      in request order, once they are stored. */
  lemma StoreThenGet(db: Database, id: int, req: StoreResultRequest, stamps: seq<Timestamp>)
    requires |stamps| == |req.partyResults|
    requires FindUnit(db.units, id).Some?
    requires forall row :: row in db.results ==> row.pollingUnitUniqueid != Decimal.IntToString(id)
    ensures var after := Store(db, id, req, stamps, true).db;
            GetResults(after, id).Ok? && GetResults(after, id).value.results == req.partyResults
  {
    var unitRef := Decimal.IntToString(id);
    StoreWritesCommitted(db, id, req, stamps);
    assert forall i :: 0 <= i < |db.results| ==> db.results[i] in db.results;
    FreshUnitCommitted(db.results, unitRef, req, stamps);
    ReadsBackFresh(Store(db, id, req, stamps, true).db, id, req, stamps);
  }

  /** With distinct parties in the request, a table holding one row per
      (polling unit, party) key still does after the store. */
  lemma StoreKeepsKeysUnique(db: Database, id: int, req: StoreResultRequest, stamps: seq<Timestamp>)
    requires |stamps| == |req.partyResults|
    requires FindUnit(db.units, id).Some?
    requires UniqueKeys(db.results) && DistinctEntries(req.partyResults)
    ensures UniqueKeys(Store(db, id, req, stamps, true).db.results)
  {
    var unitRef := Decimal.IntToString(id);
    var n := |req.partyResults|;
    var pre := db.results;
    var rows := Committed(pre, unitRef, req, stamps);
    var pending := Pending(pre, unitRef, req, stamps, n);
    assert rows == Loaded(pre, unitRef, req, stamps, n) + pending;
    PendingDistinct(pre, unitRef, req, stamps, n);
    forall a, b | 0 <= a < b < |rows|
      ensures !SameKey(rows[a], rows[b])
    {
      if b < |pre| {
        assert SameKey(rows[a], pre[a]) && SameKey(rows[b], pre[b]);
      } else if a < |pre| {
        var row := rows[b];
        assert row == pending[b - |pre|];
        PendingRows(pre, unitRef, req, stamps, n, row);
        FirstRowSpec(pre, unitRef, row.partyAbbreviation);
        assert !HasKey(pre[a], unitRef, row.partyAbbreviation);
        assert SameKey(rows[a], pre[a]);
      } else {
        assert rows[a] == pending[a - |pre|] && rows[b] == pending[b - |pre|];
      }
    }
    assert Store(db, id, req, stamps, true).db.results == rows;
  }

  /** A row with its clock reading blanked out. */
  function Undated(row: ResultRow): ResultRow {
    row.(dateEntered := None)
  }

  /** Every submitted party has a row under the unit's key once its entry is stored. */
  lemma CommittedCovers(pre: seq<ResultRow>, unitRef: string, req: StoreResultRequest,
                        stamps: seq<Timestamp>, k: nat)
    requires |stamps| == |req.partyResults| && k < |req.partyResults|
    ensures FirstRow(Committed(pre, unitRef, req, stamps), unitRef, req.partyResults[k].partyAbbreviation).Some?
  {
    var n := |req.partyResults|;
    var party := req.partyResults[k].partyAbbreviation;
    var rows := Committed(pre, unitRef, req, stamps);
    if FirstRow(pre, unitRef, party).Some? {
      FirstRowPrefix(pre, rows, unitRef, party);
    } else {
      var pending := Pending(pre, unitRef, req, stamps, n);
      var row := NewRow(unitRef, req.partyResults[k], req, stamps[k]);
      PendingCovers(pre, unitRef, req, stamps, n, k);
      var j :| 0 <= j < |pending| && pending[j] == row;
      assert rows[|pre| + j] == row;
      FirstRowSpec(rows, unitRef, party);
    }
  }

  /** A row the first store wrote is rewritten by the same request to the
      same content, clock reading aside. */
  lemma RepeatedRow(pre: seq<ResultRow>, unitRef: string, req: StoreResultRequest,
                    stamps1: seq<Timestamp>, stamps2: seq<Timestamp>, i: nat)
    requires |stamps1| == |req.partyResults| == |stamps2|
    requires DistinctEntries(req.partyResults)
    requires i < |Committed(pre, unitRef, req, stamps1)|
    ensures var once := Committed(pre, unitRef, req, stamps1);
            Undated(Loaded(once, unitRef, req, stamps2, |req.partyResults|)[i]) == Undated(once[i])
  {
    var n := |req.partyResults|;
    var once := Committed(pre, unitRef, req, stamps1);
    var party := once[i].partyAbbreviation;
    var last := LastEntry(req.partyResults, n, party);
    LoadedRow(once, unitRef, req, stamps2, n, i);
    if FirstOfKey(once, unitRef, i) && last.Some? {
      var e := req.partyResults[last.value];
      if i < |pre| {
        FirstRowPrefix(pre, once, unitRef, party);
        assert FirstOfKey(pre, unitRef, i);
        LoadedRow(pre, unitRef, req, stamps1, n, i);
        assert once[i] == Loaded(pre, unitRef, req, stamps1, n)[i];
        assert once[i] == Updated(pre[i], e, req, stamps1[last.value]);
      } else {
        var pending := Pending(pre, unitRef, req, stamps1, n);
        assert once[i] == pending[i - |pre|];
        PendingRows(pre, unitRef, req, stamps1, n, once[i]);
        PendingScore(pre, unitRef, req, stamps1, n, once[i]);
      }
    }
  }

  /** Idempotence up to clock readings: with distinct parties, repeating a
      successful request leaves the same rows, in the same order, differing
      at most in their entry timestamps. */
  lemma StoreIdempotent(db: Database, id: int, req: StoreResultRequest,
                        stamps1: seq<Timestamp>, stamps2: seq<Timestamp>)
    requires |stamps1| == |req.partyResults| == |stamps2|
    requires FindUnit(db.units, id).Some?
    requires DistinctEntries(req.partyResults)
    ensures var once := Store(db, id, req, stamps1, true).db;
            var twice := Store(once, id, req, stamps2, true).db;
            && twice.lgas == once.lgas && twice.units == once.units
            && |twice.results| == |once.results|
            && forall i :: 0 <= i < |once.results| ==> Undated(twice.results[i]) == Undated(once.results[i])
  {
    var unitRef := Decimal.IntToString(id);
    var n := |req.partyResults|;
    var once := Committed(db.results, unitRef, req, stamps1);
    assert Store(db, id, req, stamps1, true).db == db.(results := once);
    forall k | 0 <= k < n
      ensures FirstRow(once, unitRef, req.partyResults[k].partyAbbreviation).Some?
    {
      CommittedCovers(db.results, unitRef, req, stamps1, k);
    }
    PendingEmpty(once, unitRef, req, stamps2, n);
    var twice := Committed(once, unitRef, req, stamps2);
    assert twice == Loaded(once, unitRef, req, stamps2, n);
    assert Store(db.(results := once), id, req, stamps2, true).db == db.(results := twice);
    forall i | 0 <= i < |once|
      ensures Undated(twice[i]) == Undated(once[i])
    {
      RepeatedRow(db.results, unitRef, req, stamps1, stamps2, i);
    }
  }

  /** Without distinct parties the repeat is not idempotent: the second
      request finds the first of the two rows for both entries. */
  lemma DuplicatePartyNotIdempotent()
    ensures var db := Database([], [PollingUnit(7, 1, 1, 1, None, None)], []);
            var req := StoreResultRequest([PartyResult("PDP", 10), PartyResult("PDP", 12)], "system", None);
            var stamps := [Timestamp(0), Timestamp(1)];
            var once := Store(db, 7, req, stamps, true).db;
            var twice := Store(once, 7, req, stamps, true).db;
            once.results[0].partyScore == Some(10) && twice.results[0].partyScore == Some(12)
  {
    var req := StoreResultRequest([PartyResult("PDP", 10), PartyResult("PDP", 12)], "system", None);
    var stamps := [Timestamp(0), Timestamp(1)];
    var unitRef := Decimal.IntToString(7);
    DuplicatePartyInsertsTwice();
    var once := Committed([], unitRef, req, stamps);
    assert FirstRow(once, unitRef, "PDP") == Some(0);
    assert Loaded(once, unitRef, req, stamps, 2)[0] == Updated(once[0], req.partyResults[1], req, stamps[1]);
  }
}

=== FILE: schemas.dfy ===
/** Request and response shapes of the two routers, and the outcome of an operation.

    The HTTP layer is abstracted to three failures: an unknown referenced
    record (404), a storage failure at commit (500), and a response that the
    response schema rejects (500). */
module Schemas {
  import opened Models

  /** One (party, score) pair, both as submitted and as reported. */
  datatype PartyResult = PartyResult(partyAbbreviation: string, partyScore: int)

  datatype LgaInfo = LgaInfo(lgaId: int, lgaName: string)

  datatype LgaSummary = LgaSummary(lgaId: int, lgaName: string, partyTotals: seq<PartyResult>)

  datatype PollingUnitResult = PollingUnitResult(
    pollingUnitId: int,
    pollingUnitName: Option<string>,
    pollingUnitNumber: Option<string>,
    lgaId: int,
    results: seq<PartyResult>)

  /** A validated store request: `entered_by_user` already carries its default. */
  datatype StoreResultRequest = StoreResultRequest(
    partyResults: seq<PartyResult>,
    enteredByUser: string,
    userIpAddress: Option<string>)

  datatype StoreResultResponse = StoreResultResponse(
    success: bool,
    message: string,
    pollingUnitUniqueid: string)

  datatype Failure = NotFound | StorageFailure | InvalidResponse

  datatype Response<+T> = Ok(value: T) | Err(failure: Failure)

  const DefaultUser: string := "system"

  /** Request validation: an omitted `entered_by_user` becomes "system", the rest is taken as sent. */
  function MakeRequest(partyResults: seq<PartyResult>, enteredByUser: Option<string>,
                       userIpAddress: Option<string>): (r: StoreResultRequest)
    ensures r.partyResults == partyResults && r.userIpAddress == userIpAddress
    ensures enteredByUser.None? ==> r.enteredByUser == "system"
    ensures enteredByUser.Some? ==> r.enteredByUser == enteredByUser.value
  {
    StoreResultRequest(partyResults,
                       match enteredByUser case None => DefaultUser case Some(u) => u,
                       userIpAddress)
  }
}

=== FILE: upsert.dfy ===
/** The loop of `store_polling_unit_results` that upserts one row per
    submitted (party, score) entry, modelled as a fold over the entries.

    Sessions are created with autoflush off, so the lookup of an existing
    row is answered by storage alone: it sees the rows stored before the
    request (whose in-place updates never touch the key columns) and never a
    row added earlier in the same request. The fold therefore looks up in
    the pre-request table `pre`, updates those rows in `loaded`, and queues
    inserts in `pending`; the commit writes `loaded + pending`. */
module Upsert {
  import opened Models
  import opened Schemas

  /** `request.user_ip_address or None`: an empty address is stored as NULL. */
  function StoredIp(ip: Option<string>): (r: Option<string>)
    ensures r.None? <==> ip.None? || ip.value == ""
    ensures r.Some? ==> r == ip
  {
    if ip.Some? && ip.value != "" then ip else None
  }

  predicate SameKey(a: ResultRow, b: ResultRow) {
    a.pollingUnitUniqueid == b.pollingUnitUniqueid && a.partyAbbreviation == b.partyAbbreviation
  }

  /** The update branch: score, user, timestamp and address are overwritten;
      only the key columns survive from the stored row. */
  function Updated(row: ResultRow, entry: PartyResult, req: StoreResultRequest, stamp: Timestamp): (r: ResultRow)
    ensures SameKey(r, row)
  {
    ResultRow(row.pollingUnitUniqueid, row.partyAbbreviation, Some(entry.partyScore),
              Some(req.enteredByUser), Some(stamp), StoredIp(req.userIpAddress))
  }

  /** The insert branch: a fresh row for the polling unit and the entry's party.
      It is keyed so that the loop's lookup would find it, and it is already
      what the update branch would write for the same entry. */
  function NewRow(unitRef: string, entry: PartyResult, req: StoreResultRequest, stamp: Timestamp): (r: ResultRow)
    ensures HasKey(r, unitRef, entry.partyAbbreviation)
    ensures Updated(r, entry, req, stamp) == r
  {
    ResultRow(unitRef, entry.partyAbbreviation, Some(entry.partyScore),
              Some(req.enteredByUser), Some(stamp), StoredIp(req.userIpAddress))
  }

  /** The stored rows once the first `n` entries are processed: an entry
      whose key has a stored row updates the first such row in place. */
  function Loaded(pre: seq<ResultRow>, unitRef: string, req: StoreResultRequest,
                  stamps: seq<Timestamp>, n: nat): (loaded: seq<ResultRow>)
    requires n <= |req.partyResults| == |stamps|
    ensures |loaded| == |pre|
    ensures forall i :: 0 <= i < |pre| ==> SameKey(loaded[i], pre[i])
    decreases n
  {
    if n == 0 then pre
    else
      var prev := Loaded(pre, unitRef, req, stamps, n - 1);
      var entry := req.partyResults[n - 1];
      match FirstRow(pre, unitRef, entry.partyAbbreviation)
      case Some(i) => prev[i := Updated(prev[i], entry, req, stamps[n - 1])]
      case None => prev
  }

  /** The rows added to the session, not yet flushed, once the first `n`
      entries are processed: an entry whose key has no stored row adds one. */
  function Pending(pre: seq<ResultRow>, unitRef: string, req: StoreResultRequest,
                   stamps: seq<Timestamp>, n: nat): (pending: seq<ResultRow>)
    requires n <= |req.partyResults| == |stamps|
    ensures |pending| <= n
    decreases n
  {
    if n == 0 then []
    else
      var entry := req.partyResults[n - 1];
      Pending(pre, unitRef, req, stamps, n - 1) +
        (if FirstRow(pre, unitRef, entry.partyAbbreviation).None?
         then [NewRow(unitRef, entry, req, stamps[n - 1])] else [])
  }

  // ---------------------------------------------------------------------------
  // Reference notions the fold is characterised by

  /** Index of the last of the first `n` entries naming `party`. */
  function LastEntry(entries: seq<PartyResult>, n: nat, party: string): (k: Option<nat>)
    requires n <= |entries|
    ensures k.None? <==> forall j :: 0 <= j < n ==> entries[j].partyAbbreviation != party
    ensures k.Some? ==> k.value < n && entries[k.value].partyAbbreviation == party &&
                        forall j :: k.value < j < n ==> entries[j].partyAbbreviation != party
    decreases n
  {
    if n == 0 then None
    else if entries[n - 1].partyAbbreviation == party then Some(n - 1)
    else LastEntry(entries, n - 1, party)
  }

  /** The scores submitted for `party` among the first `n` entries, in request order. */
  function EntryScores(entries: seq<PartyResult>, n: nat, party: string): seq<Option<int>>
    requires n <= |entries|
    decreases n
  {
    if n == 0 then []
    else EntryScores(entries, n - 1, party) +
         (if entries[n - 1].partyAbbreviation == party then [Some(entries[n - 1].partyScore)] else [])
  }

  /** The scores of the rows for `party`, in table order. */
  function PartyScores(rows: seq<ResultRow>, party: string): seq<Option<int>>
    decreases |rows|
  {
    if |rows| == 0 then []
    else PartyScores(rows[..|rows| - 1], party) +
         (if rows[|rows| - 1].partyAbbreviation == party then [rows[|rows| - 1].partyScore] else [])
  }

  predicate DistinctEntries(entries: seq<PartyResult>) {
    forall i, j :: 0 <= i < j < |entries| ==> entries[i].partyAbbreviation != entries[j].partyAbbreviation
  }

  /** Storage holds at most one row per (polling unit, party) key. */
  predicate UniqueKeys(rows: seq<ResultRow>) {
    forall i, j :: 0 <= i < j < |rows| ==> !SameKey(rows[i], rows[j])
  }

  /** The row at `i` is the one the lookup for its own key returns. */
  predicate FirstOfKey(rows: seq<ResultRow>, unitRef: string, i: nat)
    requires i < |rows|
  {
    FirstRow(rows, unitRef, rows[i].partyAbbreviation) == Some(i)
  }

  // ---------------------------------------------------------------------------
  // What the fold does to the stored rows

  /** One iteration touches at most the stored row its lookup returns. */
  lemma {:induction false} LoadedStep(pre: seq<ResultRow>, unitRef: string, req: StoreResultRequest,
                   stamps: seq<Timestamp>, n: nat, i: nat)
    requires 0 < n <= |req.partyResults| == |stamps| && i < |pre|
    ensures var entry := req.partyResults[n - 1];
            Loaded(pre, unitRef, req, stamps, n)[i] ==
              if FirstRow(pre, unitRef, entry.partyAbbreviation) == Some(i)
              then Updated(pre[i], entry, req, stamps[n - 1])
              else Loaded(pre, unitRef, req, stamps, n - 1)[i]
  {
    var prev := Loaded(pre, unitRef, req, stamps, n - 1);
    assert SameKey(prev[i], pre[i]);
  }

  /** The first stored row of a submitted party's key ends up carrying the
      last entry for that party. */
  lemma {:induction false} LoadedUpdated(pre: seq<ResultRow>, unitRef: string, req: StoreResultRequest,
                                        stamps: seq<Timestamp>, n: nat, i: nat, k: nat)
    requires n <= |req.partyResults| == |stamps| && i < |pre|
    requires FirstOfKey(pre, unitRef, i)
    requires LastEntry(req.partyResults, n, pre[i].partyAbbreviation) == Some(k)
    ensures Loaded(pre, unitRef, req, stamps, n)[i] == Updated(pre[i], req.partyResults[k], req, stamps[k])
    decreases n
  {
    LoadedStep(pre, unitRef, req, stamps, n, i);
    var entry := req.partyResults[n - 1];
    if k < n - 1 {
      assert entry.partyAbbreviation != pre[i].partyAbbreviation;
      assert FirstRow(pre, unitRef, entry.partyAbbreviation) != Some(i);
      LoadedUpdated(pre, unitRef, req, stamps, n - 1, i, k);
    }
  }

  /** An iteration whose lookup returns another row leaves row `i` alone. */
  lemma {:induction false} LoadedMiss(pre: seq<ResultRow>, unitRef: string, req: StoreResultRequest,
                   stamps: seq<Timestamp>, n: nat, i: nat)
    requires 0 < n <= |req.partyResults| == |stamps| && i < |pre|
    requires FirstRow(pre, unitRef, req.partyResults[n - 1].partyAbbreviation) != Some(i)
    ensures Loaded(pre, unitRef, req, stamps, n)[i] == Loaded(pre, unitRef, req, stamps, n - 1)[i]
  {
    var prev := Loaded(pre, unitRef, req, stamps, n - 1);
    assert |prev| == |pre|;
  }

  /** Every other stored row is left as it was. */
  lemma {:induction false} LoadedUnchanged(pre: seq<ResultRow>, unitRef: string, req: StoreResultRequest,
                                          stamps: seq<Timestamp>, n: nat, i: nat)
    requires n <= |req.partyResults| == |stamps| && i < |pre|
    requires !FirstOfKey(pre, unitRef, i) || LastEntry(req.partyResults, n, pre[i].partyAbbreviation).None?
    ensures Loaded(pre, unitRef, req, stamps, n)[i] == pre[i]
    decreases n
  {
    if n > 0 {
      var party := req.partyResults[n - 1].partyAbbreviation;
      if party == pre[i].partyAbbreviation {
        assert LastEntry(req.partyResults, n, party) == Some(n - 1);
      } else {
        assert LastEntry(req.partyResults, n, pre[i].partyAbbreviation) ==
               LastEntry(req.partyResults, n - 1, pre[i].partyAbbreviation);
        assert !HasKey(pre[i], unitRef, party);
      }
      LoadedMiss(pre, unitRef, req, stamps, n, i);
      LoadedUnchanged(pre, unitRef, req, stamps, n - 1, i);
    }
  }

  /** A stored row changes only if it is the first row of a submitted
      party's key, and then it carries the LAST entry for that party. */
  lemma {:induction false} LoadedRow(pre: seq<ResultRow>, unitRef: string, req: StoreResultRequest,
                  stamps: seq<Timestamp>, n: nat, i: nat)
    requires n <= |req.partyResults| == |stamps| && i < |pre|
    ensures var last := LastEntry(req.partyResults, n, pre[i].partyAbbreviation);
            Loaded(pre, unitRef, req, stamps, n)[i] ==
              if FirstOfKey(pre, unitRef, i) && last.Some?
              then Updated(pre[i], req.partyResults[last.value], req, stamps[last.value])
              else pre[i]
  {
    var last := LastEntry(req.partyResults, n, pre[i].partyAbbreviation);
    if FirstOfKey(pre, unitRef, i) && last.Some? {
      LoadedUpdated(pre, unitRef, req, stamps, n, i, last.value);
    } else {
      LoadedUnchanged(pre, unitRef, req, stamps, n, i);
    }
  }

  /** Every queued insert is for this polling unit, for a submitted party
      that had no stored row, with the request's user and address. */
  lemma {:induction false} PendingRows(pre: seq<ResultRow>, unitRef: string, req: StoreResultRequest,
                                      stamps: seq<Timestamp>, n: nat, r: ResultRow)
    requires n <= |req.partyResults| == |stamps|
    requires r in Pending(pre, unitRef, req, stamps, n)
    ensures r.pollingUnitUniqueid == unitRef
    ensures FirstRow(pre, unitRef, r.partyAbbreviation).None?
    ensures LastEntry(req.partyResults, n, r.partyAbbreviation).Some?
    ensures r.enteredByUser == Some(req.enteredByUser)
    ensures r.userIpAddress == StoredIp(req.userIpAddress)
    decreases n
  {
    var prev := Pending(pre, unitRef, req, stamps, n - 1);
    var entry := req.partyResults[n - 1];
    if r in prev {
      PendingRows(pre, unitRef, req, stamps, n - 1, r);
    } else {
      assert r == NewRow(unitRef, entry, req, stamps[n - 1]);
    }
  }

  /** For a party with no stored row the inserts carry exactly the submitted
      scores, in request order: a party named twice yields two rows. */
  lemma {:induction false} PendingScores(pre: seq<ResultRow>, unitRef: string, req: StoreResultRequest,
                                        stamps: seq<Timestamp>, n: nat, party: string)
    requires n <= |req.partyResults| == |stamps|
    requires FirstRow(pre, unitRef, party).None?
    ensures PartyScores(Pending(pre, unitRef, req, stamps, n), party) == EntryScores(req.partyResults, n, party)
    decreases n
  {
    if n > 0 {
      PendingScores(pre, unitRef, req, stamps, n - 1, party);
      var prev := Pending(pre, unitRef, req, stamps, n - 1);
      var entry := req.partyResults[n - 1];
      if FirstRow(pre, unitRef, entry.partyAbbreviation).None? {
        PartyScoresAppend(prev, NewRow(unitRef, entry, req, stamps[n - 1]), party);
      } else {
        assert Pending(pre, unitRef, req, stamps, n) == prev;
      }
    }
  }

  /** A party that has a stored row gets no insert. */
  lemma {:induction false} PendingNoneStored(pre: seq<ResultRow>, unitRef: string, req: StoreResultRequest,
                                            stamps: seq<Timestamp>, n: nat, party: string)
    requires n <= |req.partyResults| == |stamps|
    requires FirstRow(pre, unitRef, party).Some?
    ensures PartyScores(Pending(pre, unitRef, req, stamps, n), party) == []
    decreases n
  {
    if n > 0 {
      PendingNoneStored(pre, unitRef, req, stamps, n - 1, party);
      var prev := Pending(pre, unitRef, req, stamps, n - 1);
      var entry := req.partyResults[n - 1];
      if FirstRow(pre, unitRef, entry.partyAbbreviation).None? {
        PartyScoresAppend(prev, NewRow(unitRef, entry, req, stamps[n - 1]), party);
      } else {
        assert Pending(pre, unitRef, req, stamps, n) == prev;
      }
    }
  }

  /** No two rows name the same party. */
  predicate DistinctRowParties(rows: seq<ResultRow>) {
    forall a, b :: 0 <= a < b < |rows| ==> rows[a].partyAbbreviation != rows[b].partyAbbreviation
  }

  /** With distinct parties in the request, no two inserts share a party. */
  lemma {:induction false} PendingDistinct(pre: seq<ResultRow>, unitRef: string, req: StoreResultRequest,
                                          stamps: seq<Timestamp>, n: nat)
    requires n <= |req.partyResults| == |stamps|
    requires DistinctEntries(req.partyResults)
    ensures DistinctRowParties(Pending(pre, unitRef, req, stamps, n))
    decreases n
  {
    if n > 0 {
      PendingDistinct(pre, unitRef, req, stamps, n - 1);
      var prev := Pending(pre, unitRef, req, stamps, n - 1);
      var entry := req.partyResults[n - 1];
      if FirstRow(pre, unitRef, entry.partyAbbreviation).None? {
        var row := NewRow(unitRef, entry, req, stamps[n - 1]);
        forall a | 0 <= a < |prev|
          ensures prev[a].partyAbbreviation != row.partyAbbreviation
        {
          PendingRows(pre, unitRef, req, stamps, n - 1, prev[a]);
          var k := LastEntry(req.partyResults, n - 1, prev[a].partyAbbreviation).value;
          assert req.partyResults[k].partyAbbreviation != req.partyResults[n - 1].partyAbbreviation;
        }
        AppendDistinct(prev, row);
      }
    }
  }

  lemma {:induction false} AppendDistinct(rows: seq<ResultRow>, row: ResultRow)
    requires DistinctRowParties(rows)
    requires forall a :: 0 <= a < |rows| ==> rows[a].partyAbbreviation != row.partyAbbreviation
    ensures DistinctRowParties(rows + [row])
  {
    var all := rows + [row];
    forall a, b | 0 <= a < b < |all|
      ensures all[a].partyAbbreviation != all[b].partyAbbreviation
    {
      assert all[a] == rows[a];
      if b < |rows| {
        assert all[b] == rows[b];
      }
    }
  }

  /** With distinct parties in the request, each queued insert carries the
      one score submitted for its party. */
  lemma {:induction false} PendingScore(pre: seq<ResultRow>, unitRef: string, req: StoreResultRequest,
                                       stamps: seq<Timestamp>, n: nat, r: ResultRow)
    requires n <= |req.partyResults| == |stamps|
    requires DistinctEntries(req.partyResults)
    requires r in Pending(pre, unitRef, req, stamps, n)
    ensures LastEntry(req.partyResults, n, r.partyAbbreviation).Some?
    ensures r.partyScore ==
            Some(req.partyResults[LastEntry(req.partyResults, n, r.partyAbbreviation).value].partyScore)
    decreases n
  {
    var prev := Pending(pre, unitRef, req, stamps, n - 1);
    var entry := req.partyResults[n - 1];
    if r in prev {
      PendingScore(pre, unitRef, req, stamps, n - 1, r);
      if entry.partyAbbreviation != r.partyAbbreviation {
        assert LastEntry(req.partyResults, n, r.partyAbbreviation) ==
               LastEntry(req.partyResults, n - 1, r.partyAbbreviation);
      } else {
        assert false;
      }
    } else {
      assert r == NewRow(unitRef, entry, req, stamps[n - 1]);
    }
  }

  /** Every entry whose party has no stored row gets its own insert. */
  lemma {:induction false} PendingCovers(pre: seq<ResultRow>, unitRef: string, req: StoreResultRequest,
                                        stamps: seq<Timestamp>, n: nat, k: nat)
    requires k < n <= |req.partyResults| == |stamps|
    requires FirstRow(pre, unitRef, req.partyResults[k].partyAbbreviation).None?
    ensures NewRow(unitRef, req.partyResults[k], req, stamps[k]) in Pending(pre, unitRef, req, stamps, n)
    decreases n
  {
    if k < n - 1 {
      PendingCovers(pre, unitRef, req, stamps, n - 1, k);
    }
  }

  /** When no submitted party has a stored row, the inserts are exactly one
      new row per entry, in request order. */
  lemma {:induction false} PendingAllNew(pre: seq<ResultRow>, unitRef: string, req: StoreResultRequest,
                                        stamps: seq<Timestamp>, n: nat)
    requires n <= |req.partyResults| == |stamps|
    requires forall k :: 0 <= k < n ==> FirstRow(pre, unitRef, req.partyResults[k].partyAbbreviation).None?
    ensures var pending := Pending(pre, unitRef, req, stamps, n);
            |pending| == n &&
            forall k :: 0 <= k < n ==> pending[k] == NewRow(unitRef, req.partyResults[k], req, stamps[k])
    decreases n
  {
    if n > 0 {
      PendingAllNew(pre, unitRef, req, stamps, n - 1);
    }
  }

  /** If every submitted party already has a stored row, nothing is inserted. */
  lemma {:induction false} PendingEmpty(pre: seq<ResultRow>, unitRef: string, req: StoreResultRequest,
                                       stamps: seq<Timestamp>, n: nat)
    requires n <= |req.partyResults| == |stamps|
    requires forall k :: 0 <= k < n ==> FirstRow(pre, unitRef, req.partyResults[k].partyAbbreviation).Some?
    ensures Pending(pre, unitRef, req, stamps, n) == []
    decreases n
  {
    if n > 0 {
      PendingEmpty(pre, unitRef, req, stamps, n - 1);
    }
  }

  // ---------------------------------------------------------------------------
  // Small facts used by the properties of the whole operation

  lemma {:induction false} PartyScoresAppend(rows: seq<ResultRow>, row: ResultRow, party: string)
    ensures PartyScores(rows + [row], party) ==
            PartyScores(rows, party) + (if row.partyAbbreviation == party then [row.partyScore] else [])
  {
    assert (rows + [row])[..|rows|] == rows;
  }

  /** Lookups agree on two tables whose first |pre| rows have the same keys,
      as long as the answer lies in that shared prefix. */
  lemma FirstRowPrefix(pre: seq<ResultRow>, post: seq<ResultRow>, unitRef: string, party: string)
    requires |pre| <= |post|
    requires forall i :: 0 <= i < |pre| ==> SameKey(post[i], pre[i])
    ensures FirstRow(pre, unitRef, party).Some? ==> FirstRow(post, unitRef, party) == FirstRow(pre, unitRef, party)
    ensures FirstRow(post, unitRef, party).Some? && FirstRow(post, unitRef, party).value < |pre| ==>
              FirstRow(pre, unitRef, party) == FirstRow(post, unitRef, party)
  {
    var a := FirstRow(pre, unitRef, party);
    var b := FirstRow(post, unitRef, party);
    FirstRowSpec(pre, unitRef, party);
    if b.Some? && b.value < |pre| {
      assert SameKey(post[b.value], pre[b.value]);
    }
    if a.Some? {
      FirstRowEqual(pre, post, unitRef, party, a.value);
    }
  }

  lemma FirstRowEqual(pre: seq<ResultRow>, post: seq<ResultRow>, unitRef: string, party: string, k: nat)
    requires |pre| <= |post|
    requires forall i :: 0 <= i < |pre| ==> SameKey(post[i], pre[i])
    requires FirstRow(pre, unitRef, party) == Some(k)
    ensures FirstRow(post, unitRef, party) == Some(k)
  {
    FirstRowSpec(pre, unitRef, party);
    FirstRowSpec(post, unitRef, party);
    assert SameKey(post[k], pre[k]);
  }
}
